=== FILE: README.md ===
# Node Server Manager — a Dafny model of its bookkeeping

The Node Server Manager is a small desktop window (`NodeApp` in `app.py`) that
keeps a list of folders, discovers the Node.js projects directly inside them (a
directory holding `package.json`), and runs `npm start` for one selected
project while showing its output and a running/stopped status.

This project models the state that `NodeApp` keeps and the way its handlers
change it, as pure functions on an immutable state record:

- `folders.dfy` — the folder list: a non-empty folder chosen in the dialog is
  appended unless already listed, so adding never introduces a duplicate and
  a list loaded without duplicates never gets one.
- `registry.dfy` — the project scan of `refresh_project_list`: folders are
  scanned in order, each entry that is a directory containing `package.json`
  is recorded under its name, and a later folder overwrites an earlier one on a
  name collision. A folder that cannot be listed raises, leaving the map filled
  only from the folders before it. Proved: the map is sound (every entry is a
  project directory of a configured folder), complete when every folder can be
  listed, last-folder-wins, and the abort keeps exactly the scan of the prefix.
  The in-place loop is also written as a method and proved equal to the
  functional scan.
- `app.dfy` — the application state (folders and their saved copy, project
  map, the launching worker, the child process, status label, Start/Stop
  buttons, log) with one function per handler (`add_project_folder`,
  `clear_project_folders`, `refresh_project_list`, `start_server`,
  `stop_server`) and per step of the `run_server` worker (process created,
  spawn error, output line, exit, `finally`). An event machine with the
  window's own guards (a disabled Start button, a hidden Stop button) is proved
  to keep an invariant: at most one tracked worker or process handle at a
  time, Start enabled exactly when neither exists, the folder list
  duplicate-free and saved. The invariant is about the handles the window
  keeps, not about the operating system's processes (see below).
- `text.dfy` — Python's `str.strip()` with Python's whitespace set, used on the
  selected project name. `paths.dfy` — POSIX `os.path.join`.
  `filesystem.dfy` — the filesystem as a snapshot (listings, directories,
  files). `wrappers.dfy` — `Option`.

Where the program's intended design and its code differ, the model
follows the code:
- a configured folder that cannot be listed is not skipped: `os.listdir`
  raises, the scan stops there and the map keeps what was found before it (at
  start-up the window does not come up at all);
- `start_server` does not reject a start while a server runs; the only guard
  is the disabled Start button, which the event machine respects;
- `start_server` does not check the project directory or its manifest again;
  it only looks the stripped name up in the project map (an empty path counts
  as not found, because the code tests the path's truth value).

Three consequences of the code are stated as lemmas:
- the selected name is stripped before the lookup, so a project whose
  directory name begins or ends with whitespace is listed but cannot be
  started under its own name: the start is reported as not found when the
  stripped name is no project (`App.PaddedNameNotFound`), and it launches the
  other project when the stripped name is one (`App.PaddedNameLaunchesStripped`);
- an exception while reading the child's output makes the `finally` clause
  drop the handle of a child that still runs, after which Stop does nothing
  (`App.OutputErrorDropsLiveChild`);
- after that, Start is enabled again and a second server can be launched
  while the first child keeps running (`App.SecondLaunchAfterOutputError`), so
  the program does not keep to one server process at a time.

## Model

| member | source | states |
|---|---|---|
| Text.IsSpace | app.py:106 | the whitespace set of Python's `str.strip()` |
| Text.TrimStart | app.py:106 | the result is a suffix of the input, everything cut off is whitespace, and it does not start with whitespace |
| Text.TrimEnd | app.py:106 | the result is a prefix of the input, everything cut off is whitespace, and it does not end with whitespace |
| Text.Strip | app.py:106 | the stripped name is empty exactly when the text is all whitespace; otherwise it neither starts nor ends with whitespace |
| Text.StripIsInfix | app.py:106 | the stripped name is an infix of the text with only whitespace cut from both ends |
| Paths.Join | app.py:97-98 | an absolute entry name replaces the base; otherwise the base is a prefix of the joined path, which adds at most one separator and the name |
| Paths.JoinEndsWithName | app.py:97-98 | the joined path ends with the entry name |
| FileSystems.IsProject | app.py:97-98 | an entry qualifies when its joined path is a directory holding a regular file `package.json` |
| Folders.Add | app.py:76-77 | the old list is a prefix of the new one, it grows by one exactly when the folder is non-empty and new, its members are the old ones plus the folder, and a duplicate-free list stays duplicate-free |
| Registry.Refresh | app.py:93-99 | the scan of the folders in order from an empty map; an aborted scan names a configured folder that cannot be listed |
| Registry.ScanEntries | app.py:96-99 | after one folder's entries, a name is a key exactly when it was already a key or is a project directory of that folder, and such a name maps to its path in that folder while other keys keep their value |
| Registry.RefreshCompleteIff | app.py:95-96 | the scan completes if and only if every configured folder can be listed |
| Registry.RefreshStopsAtMissing | app.py:94-96 | when the k-th folder is the first unlistable one the scan aborts at it and keeps exactly the complete scan of the folders before it |
| Registry.RefreshSound | app.py:94-99 | every entry of the map, complete or half-built, maps a name to the path of a project directory listed in some configured folder |
| Registry.RefreshComplete | app.py:95-99 | when every folder can be listed, every project directory of every configured folder has its name as a key |
| Registry.RefreshLastWins | app.py:95-99 | when every folder can be listed, each name maps to its path in the last configured folder that holds it as a project |
| Registry.RefreshPicksLast | app.py:95-99 | a name whose last holder is folder k maps to the path under folder k |
| Registry.CollisionLaterFolderWins | app.py:95-99 | with two folders both holding project X, X maps to the second folder's path |
| Registry.RefreshProjectPaths | app.py:93-99 | the nested loop that clears the map and fills it in place yields the same outcome as the functional scan, aborting at an unlistable folder |
| App.Init | app.py:26-72 | the window comes up exactly when every saved folder can be listed; it starts with the saved list, the map of the complete scan of it, no worker or process, status stopped, Start enabled, Stop hidden and an empty log, and satisfies the invariant when the saved list has no duplicates |
| App.AddProjectFolder | app.py:74-82 | the folder list becomes the list with the folder added; a new folder is saved and the map rebuilt from the new list; a cancelled or listed folder changes nothing |
| App.ClearProjectFolders | app.py:84-91 | on confirmation the folder list, its saved copy and the project map are emptied and nothing else changes; on refusal nothing changes |
| App.RefreshProjectList | app.py:93-99 | the new map is determined by the folders and the filesystem alone, is sound, and when every folder can be listed is complete and last-folder-wins; nothing else changes |
| App.StartServer | app.py:105-123 | a blank selection is rejected exactly when the text is all whitespace, a name missing from the map or mapped to an empty path is rejected as not found, a rejection leaves the state unchanged, and an accepted start launches a worker for the mapped path with the banner logged, Start disabled, Stop shown and the status running |
| App.StopServer | app.py:153-158 | the state changes if and only if a child exists and is still running; then terminate is sent, Stop hidden and the status stopped, with the handle kept |
| App.Finally | app.py:142-150 | the handle is cleared, the status stopped, Start enabled and Stop hidden; the log gains "Error: <message>" when the worker raised and then "Server stopped."; folders, saved list, map and any launching worker are untouched |
| App.ProcessCreated | app.py:127-134 | a successful spawn turns the launching worker into a running child in the project directory, not yet terminated |
| App.SpawnFailed | app.py:142-150 | a failed spawn leaves the application idle and stopped with Start enabled and Stop hidden, the error and "Server stopped." logged, and folders, saved list and map untouched |
| App.OutputLine | app.py:136-138 | an output line is appended to the log and nothing else changes |
| App.ProcessExited | app.py:140 | an exited child keeps its handle but no longer counts as running |
| App.RunFinished | app.py:136-150 | when the worker ends, the handle is cleared, the status stopped, Start enabled, Stop hidden, the log gains "Error: <message>" when reading raised and then "Server stopped.", and folders, saved list, map and launching worker are untouched |
| App.Registered | app.py:111-112 | a name counts as found when the map holds it with a non-empty path, the truth test of `project_paths.get` |
| App.StartBanner | app.py:116 | the log text written when a launch begins |
| App.ErrorLines | app.py:143 | the log line of the `except` clause, present only when the worker raised |
| App.CanOccur | app.py:118-157 | Start is clicked only while enabled, Stop only while packed, and worker events follow spawn, then output, then exit, then `finally` |
| App.StepKeepsInv | app.py:74-158 | every event that can occur in a state satisfying the invariant keeps it |
| App.RunKeepsInv | app.py:74-158 | every sequence of events that can occur keeps the invariant |
| App.SingleHandle | app.py:118-147 | from start-up on a duplicate-free list, any reachable state keeps the list duplicate-free and saved, never holds a launching worker beside a child handle, and allows a Start click only when no worker or handle exists |
| App.RelayThenExit | app.py:136-150 | a child that writes three lines and exits leaves exactly those lines in order followed by one "Server stopped." line, idle and stopped |
| App.StopThenExit | app.py:145-158 | Stop followed by the child's exit logs "Stopping server..." and "Server stopped." once each and ends idle |
| App.OutputErrorDropsLiveChild | app.py:136-150 | an output error while the child still runs clears its handle, after which Stop does nothing |
| App.SecondLaunchAfterOutputError | app.py:118-150 | after an output error drops a live, unterminated child, Start can be clicked and a registered selection launches a second worker |
| App.PaddedNameNotFound | app.py:106-114 | a registered name with whitespace around it whose stripped form is not registered is rejected as not found, with the state unchanged |
| App.PaddedNameLaunchesStripped | app.py:106-114 | a registered name with whitespace around it whose stripped form is also registered launches the stripped name's path |

## Left out

- The tkinter window, menus, message boxes, the folder dialog and the log widget's scrolling (app.py:21-72, 160-178): the dialog's answer and the confirmation are parameters, the log is the sequence of texts written into it.
- The combobox: its values (app.py:89, 101) and the `current(0)` selection (app.py:102-103) are not modelled; the selected text is a parameter of `App.StartServer`. A Dafny `map` stands for the dict, so its insertion order is not modelled.
- `load_config` / `save_config` (app.py:10-18): the JSON file is reduced to the `saved` field, written with the list after every add and clear; a missing config file or key is not modelled.
- `subprocess.Popen`, `terminate`, `poll` and `wait` (app.py:125-143, 154-155): the child is an abstract `Proc` record and its spawn, output, exit and errors are events.
- A config file edited by hand so that it lists a folder twice: `load_config` (app.py:10-14) takes the list as written and nothing removes the duplicate; the duplicate-free results hold only for a duplicate-free saved list.
- The operating system's processes: the state holds only the handle in `self.process`, so a child whose handle was dropped is not represented and the single-handle invariant says nothing about it.
- The daemon thread (app.py:123): worker steps are events interleaved one at a time with user actions; real races between `stop_server` and the `finally` clause are not represented. The `finally` clause is one step, so a Start click handled between app.py:147 (Start re-enabled) and app.py:150 is not represented; in the program it launches a second worker whose server then runs with Stop hidden, "Server stopped." logged under its banner and the status stopped, so the window cannot stop it. Two workers at once, reached that way or by calling `start_server` directly, are not represented either.
- The real `os.listdir` / `os.path.isdir` / `os.path.isfile` semantics (symbolic links, permissions, entry order): the filesystem is a snapshot, and a folder outside its listings is one on which `os.listdir` raises.
- Paths.Join: its contract states the absolute-name and prefix properties of `os.path.join` (the suffix property is `Paths.JoinEndsWithName`), not the exact separator rule, which only its body gives.

=== FILE: app.dfy ===
/**
 * The bookkeeping of `NodeApp` (app.py:20-158) as pure transitions on a state
 * record: the folder list and its saved copy, the project map, the
 * `run_server` worker and its child process, and the three widgets whose
 * state the handlers switch (status label, Start and Stop buttons, log).
 */
module App {
  import opened Wrappers
  import opened Text
  import opened Paths
  import opened FileSystems
  import Registry
  import Folders

  /**
   * The `npm start` child held in `self.process`: its working directory,
   * whether `poll()` still reports it running, and whether `terminate()` has
   * been sent to it.
   */
  datatype Proc = Proc(cwd: Path, alive: bool, terminated: bool)

  /**
   * The application state.
   * - `folders`: `config['project_folders']`; `saved`: that list as last written to the config file.
   * - `projectPaths`: `self.project_paths`, project name to project path.
   * - `launching`: the path of a `run_server` thread that has been started but
   *   has not yet created its process.
   * - `process`: `self.process`.
   * - `statusRunning`: the status label reads "Server Running".
   * - `startEnabled`, `stopShown`: the Start button is enabled, the Stop button is packed.
   * - `log`: the text of the log widget, as the pieces written into it.
   */
  datatype AppState = AppState(
    folders: seq<Path>,
    saved: seq<Path>,
    projectPaths: map<string, Path>,
    launching: Option<Path>,
    process: Option<Proc>,
    statusRunning: bool,
    startEnabled: bool,
    stopShown: bool,
    log: seq<string>)

  /** `self.process and self.process.poll() is None`: a child exists and has not exited. */
  predicate Running(s: AppState) {
    s.process.Some? && s.process.value.alive
  }

  /** No worker thread and no child process: the Start button may be used. */
  predicate Idle(s: AppState) {
    s.launching.None? && s.process.None?
  }

  /**
   * `NodeApp.__init__` (app.py:26-28, 64, 72) on the folder list read from the
   * config file: no process, status stopped, Start enabled, Stop hidden, and
   * the project list scanned. A folder that cannot be listed makes the
   * constructor raise, so no application comes up.
   */
  function Init(saved: seq<Path>, fs: FileSystem): (r: Option<AppState>)
    ensures r.Some? <==> Registry.AllListable(fs, saved)
    ensures r.Some? ==> r.value.folders == saved && Idle(r.value) && !r.value.statusRunning
    ensures r.Some? ==> forall i, name :: Registry.Qualifies(fs, saved, i, name) ==> name in r.value.projectPaths
    ensures r.Some? ==> r.value.projectPaths == Registry.Refresh(fs, saved).paths && r.value.saved == saved
    ensures r.Some? ==> r.value.log == [] && r.value.startEnabled && !r.value.stopShown
    ensures r.Some? && Folders.NoDuplicates(saved) ==> Inv(r.value)
  {
    var scan := Registry.Refresh(fs, saved);
    Registry.RefreshCompleteIff(fs, saved);
    if scan.Aborted? then None
    else
      Registry.RefreshComplete(fs, saved);
      Some(AppState(saved, saved, scan.paths, None, None, false, true, false, []))
  }

  /**
   * `add_project_folder` (app.py:74-82) once the dialog has answered `folder`
   * ("" when cancelled). A new folder is appended, the list saved and the
   * project map rebuilt from the new list; a cancelled or already listed
   * folder changes nothing.
   */
  function AddProjectFolder(s: AppState, fs: FileSystem, folder: Path): (r: AppState)
    ensures r.folders == Folders.Add(s.folders, folder)
    ensures Folders.IsNew(s.folders, folder) ==>
      r == s.(folders := r.folders, saved := r.folders, projectPaths := Registry.Refresh(fs, r.folders).paths)
    ensures !Folders.IsNew(s.folders, folder) ==> r == s
  {
    if Folders.IsNew(s.folders, folder) then
      var folders := Folders.Add(s.folders, folder);
      s.(folders := folders, saved := folders, projectPaths := Registry.Refresh(fs, folders).paths)
    else s
  }

  /**
   * `clear_project_folders` (app.py:84-91) once the confirmation dialog has
   * answered: on yes both the folder list (saved too) and the project map
   * are emptied; on no nothing changes.
   */
  function ClearProjectFolders(s: AppState, confirmed: bool): (r: AppState)
    ensures confirmed ==> r == s.(folders := [], saved := [], projectPaths := map[])
    ensures !confirmed ==> r == s
  {
    if confirmed then s.(folders := [], saved := [], projectPaths := map[]) else s
  }

  /**
   * `refresh_project_list` (app.py:93-99). The new map is a function of the
   * folders and the filesystem alone; every entry names a project directory
   * of a configured folder, and when every folder can be listed the map holds
   * every such project, under the path of the last folder that has it.
   */
  function RefreshProjectList(s: AppState, fs: FileSystem): (r: AppState)
    ensures r == s.(projectPaths := Registry.Refresh(fs, s.folders).paths)
    ensures forall name :: name in r.projectPaths ==>
      exists i :: Registry.Qualifies(fs, s.folders, i, name) && r.projectPaths[name] == Join(s.folders[i], name)
    ensures Registry.AllListable(fs, s.folders) ==>
      forall i, name :: Registry.Qualifies(fs, s.folders, i, name) ==> name in r.projectPaths
    ensures Registry.AllListable(fs, s.folders) ==> forall name :: name in r.projectPaths ==>
      exists i :: Registry.LastFoundIn(fs, s.folders, i, name) && r.projectPaths[name] == Join(s.folders[i], name)
  {
    var r := s.(projectPaths := Registry.Refresh(fs, s.folders).paths);
    Registry.RefreshSound(fs, s.folders);
    if Registry.AllListable(fs, s.folders) then
      Registry.RefreshComplete(fs, s.folders);
      Registry.RefreshLastWins(fs, s.folders);
      r
    else r
  }

  /** Why `start_server` did or did not launch a worker. */
  datatype StartOutcome =
    | Launched(path: Path)        // a `run_server` thread was started for `path`
    | NothingSelected             // "Please select a project."
    | NotFound(name: string)      // "Project '<name>' not found."

  datatype StartReply = StartReply(state: AppState, outcome: StartOutcome)

  /** `self.project_paths.get(name)` is truthy: the name is mapped, and to a non-empty path. */
  predicate Registered(paths: map<string, Path>, name: string) {
    name in paths && paths[name] != ""
  }

  /** The text `set_log_output` writes when a launch begins (app.py:116). */
  function StartBanner(name: string, path: Path): string {
    "Starting server for: " + name + "\nPath: " + path + "\n\n"
  }

  /**
   * `start_server` (app.py:105-123) on the combobox text `selected`. The text
   * is stripped; a blank name, or one the project map lacks or maps to an
   * empty path, is rejected with the state untouched. Otherwise the log is
   * replaced by the banner, Start is disabled, Stop shown, the status set to
   * running and a worker launched for the project's path. The handler itself
   * does not look at the process: a second call while one runs is accepted.
   */
  function StartServer(s: AppState, selected: string): (r: StartReply)
    ensures r.outcome == NothingSelected <==> AllSpace(selected)
    ensures r.outcome.NotFound? <==> !AllSpace(selected) && !Registered(s.projectPaths, Strip(selected))
    ensures r.outcome.NotFound? ==> r.outcome.name == Strip(selected)
    ensures !r.outcome.Launched? ==> r.state == s
    ensures r.outcome.Launched? ==>
      && Registered(s.projectPaths, Strip(selected))
      && r.outcome.path == s.projectPaths[Strip(selected)]
      && r.state == s.(log := [StartBanner(Strip(selected), r.outcome.path)], startEnabled := false,
                       stopShown := true, statusRunning := true, launching := Some(r.outcome.path))
  {
    var name := Strip(selected);
    if name == "" then StartReply(s, NothingSelected)
    else if !Registered(s.projectPaths, name) then StartReply(s, NotFound(name))
    else
      var path := s.projectPaths[name];
      StartReply(s.(log := [StartBanner(name, path)], startEnabled := false, stopShown := true,
                    statusRunning := true, launching := Some(path)),
                 Launched(path))
  }

  /**
   * `stop_server` (app.py:153-158). Only while a child exists and has not
   * exited: `terminate()` is sent, a line logged, Stop hidden and the status
   * set to stopped; the handle stays until the worker's `finally` clears it.
   * In every other state, including a worker that has not yet created its
   * process, the call does nothing.
   */
  function StopServer(s: AppState): (r: AppState)
    ensures r == s <==> !Running(s)
    ensures Running(s) ==>
      && r.process == Some(s.process.value.(terminated := true))
      && !r.statusRunning && !r.stopShown
      && r == s.(process := r.process, statusRunning := false, stopShown := false,
                 log := s.log + ["\nStopping server...\n"])
  {
    if Running(s) then
      s.(process := Some(s.process.value.(terminated := true)), log := s.log + ["\nStopping server...\n"],
         stopShown := false, statusRunning := false)
    else s
  }

  /** The line the `except` clause logs for an exception with message `e` (app.py:143). */
  function ErrorLines(error: Option<string>): seq<string> {
    if error.Some? then ["\nError: " + error.value + "\n"] else []
  }

  /**
   * The `finally` clause of `run_server` (app.py:145-150), preceded by the
   * `except` clause's log line when the worker raised: the process handle is
   * cleared, Start enabled, Stop hidden, "Server stopped." logged and the
   * status set to stopped. Folders, project map and any other launching
   * worker are untouched.
   */
  function Finally(s: AppState, error: Option<string>): (r: AppState)
    ensures r.process.None? && !r.statusRunning && r.startEnabled && !r.stopShown
    ensures error.Some? ==> r.log == s.log + ["\nError: " + error.value + "\n", "\nServer stopped.\n"]
    ensures error.None? ==> r.log == s.log + ["\nServer stopped.\n"]
    ensures r.folders == s.folders && r.saved == s.saved && r.projectPaths == s.projectPaths
    ensures r.launching == s.launching
  {
    s.(process := None, startEnabled := true, stopShown := false, statusRunning := false,
       log := s.log + ErrorLines(error) + ["\nServer stopped.\n"])
  }

  /** `subprocess.Popen` succeeded in the launching worker (app.py:127-134). */
  function ProcessCreated(s: AppState): (r: AppState)
    requires s.launching.Some?
    ensures r.launching.None? && Running(r)
    ensures r.process == Some(Proc(s.launching.value, true, false))
    ensures r == s.(launching := None, process := r.process)
  {
    s.(launching := None, process := Some(Proc(s.launching.value, true, false)))
  }

  /** `subprocess.Popen` raised in the launching worker: `except` then `finally` (app.py:142-150). */
  function SpawnFailed(s: AppState, message: string): (r: AppState)
    requires s.launching.Some?
    ensures Idle(r) && !r.statusRunning && r.startEnabled && !r.stopShown
    ensures r.log == s.log + ["\nError: " + message + "\n", "\nServer stopped.\n"]
    ensures r.folders == s.folders && r.saved == s.saved && r.projectPaths == s.projectPaths
  {
    Finally(s.(launching := None), Some(message))
  }

  /** The worker relays one line read from the child's output (app.py:137-138). */
  function OutputLine(s: AppState, line: string): (r: AppState)
    requires s.process.Some?
    ensures r.log == s.log + [line] && r == s.(log := r.log)
  {
    s.(log := s.log + [line])
  }

  /** The child exits, on its own or after `terminate()`: `poll()` stops returning None. */
  function ProcessExited(s: AppState): (r: AppState)
    requires Running(s)
    ensures r.process.Some? && !Running(r)
    ensures r == s.(process := Some(s.process.value.(alive := false)))
  {
    s.(process := Some(s.process.value.(alive := false)))
  }

  /**
   * The worker leaves its `try` block: either `wait()` returned after the child
   * exited, or reading its output raised `error` (app.py:136-150).
   */
  function RunFinished(s: AppState, error: Option<string>): (r: AppState)
    requires s.process.Some? && (error.Some? || !s.process.value.alive)
    ensures r.process.None? && !Running(r) && !r.statusRunning && r.startEnabled && !r.stopShown
    ensures error.Some? ==> r.log == s.log + ["\nError: " + error.value + "\n", "\nServer stopped.\n"]
    ensures error.None? ==> r.log == s.log + ["\nServer stopped.\n"]
    ensures r.folders == s.folders && r.saved == s.saved && r.projectPaths == s.projectPaths
    ensures r.launching == s.launching
  {
    Finally(s, error)
  }

  /** What can happen to the application: a user action or a worker event. */
  datatype Event =
    | FolderChosen(fs: FileSystem, folder: Path)
    | ClearAnswered(confirmed: bool)
    | RefreshChosen(fs: FileSystem)
    | StartClicked(selected: string)
    | StopClicked
    | Spawned
    | SpawnError(message: string)
    | Output(line: string)
    | Exited
    | WorkerDone(error: Option<string>)

  /**
   * When an event can happen. Tk invokes no command of a disabled button, and
   * Stop can only be clicked while packed; the worker events follow the
   * order of `run_server`.
   */
  predicate CanOccur(s: AppState, e: Event) {
    match e
    case StartClicked(_) => s.startEnabled
    case StopClicked => s.stopShown
    case Spawned => s.launching.Some?
    case SpawnError(_) => s.launching.Some?
    case Output(_) => s.process.Some?
    case Exited => Running(s)
    case WorkerDone(error) => s.process.Some? && (error.Some? || !s.process.value.alive)
    case _ => true
  }

  /** The state after event `e`. */
  function Step(s: AppState, e: Event): AppState
    requires CanOccur(s, e)
  {
    match e
    case FolderChosen(fs, folder) => AddProjectFolder(s, fs, folder)
    case ClearAnswered(confirmed) => ClearProjectFolders(s, confirmed)
    case RefreshChosen(fs) => RefreshProjectList(s, fs)
    case StartClicked(selected) => StartServer(s, selected).state
    case StopClicked => StopServer(s)
    case Spawned => ProcessCreated(s)
    case SpawnError(message) => SpawnFailed(s, message)
    case Output(line) => OutputLine(s, line)
    case Exited => ProcessExited(s)
    case WorkerDone(error) => RunFinished(s, error)
  }

  /** Every event of `events` can happen in the state the earlier ones lead to. */
  predicate CanRun(s: AppState, events: seq<Event>)
    decreases |events|
  {
    events == [] || (CanOccur(s, events[0]) && CanRun(Step(s, events[0]), events[1..]))
  }

  /** The state after `events`, in order. */
  function Run(s: AppState, events: seq<Event>): AppState
    requires CanRun(s, events)
    decreases |events|
  {
    if events == [] then s else Run(Step(s, events[0]), events[1..])
  }

  /**
   * What every reachable state satisfies: the folder list has no duplicates
   * and equals its saved copy; Start is enabled exactly when no worker and no
   * process exist, and there is never both a launching worker and a process
   * handle (at most one tracked worker or process handle at a time); Stop is shown exactly while the status
   * says running; and a running status means a launch in flight or a child
   * that has not been told to terminate.
   */
  predicate Inv(s: AppState) {
    && Folders.NoDuplicates(s.folders)
    && s.saved == s.folders
    && (s.startEnabled <==> Idle(s))
    && !(s.launching.Some? && s.process.Some?)
    && s.stopShown == s.statusRunning
    && (s.statusRunning ==> s.launching.Some? || (s.process.Some? && !s.process.value.terminated))
  }

  /** One event that can occur keeps the invariant. */
  lemma StepKeepsInv(s: AppState, e: Event)
    requires Inv(s) && CanOccur(s, e)
    ensures Inv(Step(s, e))
  {
  }

  /** Every sequence of possible events keeps the invariant. */
  lemma {:induction false} RunKeepsInv(s: AppState, events: seq<Event>)
    requires Inv(s) && CanRun(s, events)
    ensures Inv(Run(s, events))
    decreases |events|
  {
    if events != [] {
      StepKeepsInv(s, events[0]);
      RunKeepsInv(Step(s, events[0]), events[1..]);
    }
  }

  /**
   * From a start-up on a duplicate-free saved list, whatever happens: the
   * folder list stays duplicate-free and saved, there is never a launching
   * worker beside a child process handle, and Start can only be clicked when
   * neither exists. The invariant is about handles: a child whose handle was
   * dropped after an output error keeps running outside the state (see
   * `SecondLaunchAfterOutputError`).
   */
  lemma {:induction false} SingleHandle(saved: seq<Path>, fs: FileSystem, events: seq<Event>)
    requires Init(saved, fs).Some? && Folders.NoDuplicates(saved)
    requires CanRun(Init(saved, fs).value, events)
    ensures Folders.NoDuplicates(Run(Init(saved, fs).value, events).folders)
    ensures Run(Init(saved, fs).value, events).saved == Run(Init(saved, fs).value, events).folders
    ensures !(Run(Init(saved, fs).value, events).launching.Some? && Run(Init(saved, fs).value, events).process.Some?)
    ensures forall selected :: CanOccur(Run(Init(saved, fs).value, events), StartClicked(selected)) ==>
      Idle(Run(Init(saved, fs).value, events))
  {
    RunKeepsInv(Init(saved, fs).value, events);
  }

  /**
   * A running child writes `a`, `b`, `c` and exits: the log receives exactly
   * those lines in order and then one "Server stopped." line, and the
   * application is idle with the status stopped.
   */
  lemma RelayThenExit(s: AppState, a: string, b: string, c: string)
    requires Inv(s) && Running(s)
    ensures CanRun(s, [Output(a), Output(b), Output(c), Exited, WorkerDone(None)])
    ensures Run(s, [Output(a), Output(b), Output(c), Exited, WorkerDone(None)]).log == s.log + [a, b, c, "\nServer stopped.\n"]
    ensures Idle(Run(s, [Output(a), Output(b), Output(c), Exited, WorkerDone(None)]))
    ensures !Run(s, [Output(a), Output(b), Output(c), Exited, WorkerDone(None)]).statusRunning
  {
    var events := [Output(a), Output(b), Output(c), Exited, WorkerDone(None)];
    var s1 := OutputLine(s, a);
    var s2 := OutputLine(s1, b);
    var s3 := OutputLine(s2, c);
    var s4 := ProcessExited(s3);
    var s5 := RunFinished(s4, None);
    assert events[1..][1..][1..][1..][1..] == [];
    assert CanRun(s5, []);
    assert CanRun(s4, events[4..]);
    assert CanRun(s3, events[3..]);
    assert CanRun(s2, events[2..]);
    assert CanRun(s1, events[1..]);
    assert Run(s4, events[4..]) == s5;
    assert Run(s3, events[3..]) == s5;
    assert Run(s2, events[2..]) == s5;
    assert Run(s1, events[1..]) == s5;
  }

  /**
   * Stop on a running child and then its exit: "Stopping server..." and
   * "Server stopped." are logged once each, and the application ends idle.
   */
  lemma StopThenExit(s: AppState)
    requires Inv(s) && Running(s) && s.stopShown
    ensures CanRun(s, [StopClicked, Exited, WorkerDone(None)])
    ensures Run(s, [StopClicked, Exited, WorkerDone(None)]).log == s.log + ["\nStopping server...\n", "\nServer stopped.\n"]
    ensures Idle(Run(s, [StopClicked, Exited, WorkerDone(None)]))
    ensures Inv(Run(s, [StopClicked, Exited, WorkerDone(None)]))
  {
  }

  /**
   * Reading the child's output raises while the child still runs: the
   * `finally` clause drops the handle of a live process that was never told
   * to terminate, after which Stop does nothing.
   */
  lemma OutputErrorDropsLiveChild(s: AppState, error: string)
    requires Running(s) && !s.process.value.terminated
    ensures CanOccur(s, WorkerDone(Some(error)))
    ensures Step(s, WorkerDone(Some(error))).process.None?
    ensures StopServer(Step(s, WorkerDone(Some(error)))) == Step(s, WorkerDone(Some(error)))
  {
  }

  /**
   * After an output error drops the handle of a child that still runs, Start
   * is enabled again and a registered selection launches a second worker,
   * while the first child has never been told to terminate.
   */
  lemma SecondLaunchAfterOutputError(s: AppState, error: string, selected: string)
    requires Inv(s) && Running(s) && !s.process.value.terminated
    requires !AllSpace(selected) && Registered(s.projectPaths, Strip(selected))
    ensures CanOccur(s, WorkerDone(Some(error)))
    ensures CanOccur(Step(s, WorkerDone(Some(error))), StartClicked(selected))
    ensures StartServer(Step(s, WorkerDone(Some(error))), selected).outcome.Launched?
  {
  }

  /**
   * A selection with whitespace around it is looked up stripped: when the
   * stripped name is not registered the start is reported as not found, even
   * if the padded name itself is a registered project.
   */
  lemma PaddedNameNotFound(s: AppState, name: string)
    requires Registered(s.projectPaths, name) && Strip(name) != name && !AllSpace(name)
    requires !Registered(s.projectPaths, Strip(name))
    ensures StartServer(s, name).outcome == NotFound(Strip(name))
    ensures StartServer(s, name).state == s
  {
  }

  /**
   * A selection with whitespace around it whose stripped name is also a
   * project launches that other project's path, not the selected one's.
   */
  lemma PaddedNameLaunchesStripped(s: AppState, name: string)
    requires Registered(s.projectPaths, name) && Strip(name) != name && !AllSpace(name)
    requires Registered(s.projectPaths, Strip(name))
    ensures StartServer(s, name).outcome == Launched(s.projectPaths[Strip(name)])
  {
  }
}

=== FILE: filesystem.dfy ===
/**
 * A snapshot of the filesystem as the project scan observes it: directory
 * listings (`os.listdir`), directories (`os.path.isdir`) and regular files
 * (`os.path.isfile`).
 */
module FileSystems {
  import opened Paths

  /**
   * `entries` maps every folder that `os.listdir` can read to its entry names
   * (a folder outside its domain makes `os.listdir` raise); `dirs` and `files`
   * are the paths for which `os.path.isdir` and `os.path.isfile` hold.
   */
  datatype FileSystem = FileSystem(entries: map<Path, seq<string>>, dirs: set<Path>, files: set<Path>)

  /** `os.path.isdir(p)`. */
  predicate IsDir(fs: FileSystem, p: Path) {
    p in fs.dirs
  }

  /** `os.path.isfile(p)`. */
  predicate IsFile(fs: FileSystem, p: Path) {
    p in fs.files
  }

  /** `os.listdir(folder)` succeeds. */
  predicate Listable(fs: FileSystem, folder: Path) {
    folder in fs.entries
  }

  /**
   * The test of app.py:97-98: entry `name` of `folder` is a directory holding
   * a regular file `package.json`.
   */
  predicate IsProject(fs: FileSystem, folder: Path, name: string) {
    var full := Join(folder, name);
    IsDir(fs, full) && IsFile(fs, Join(full, Manifest))
  }
}

=== FILE: folders.dfy ===
/**
 * The configured folder list `config['project_folders']`: an ordered list of
 * folder paths that never stores a path twice (app.py:76-77, 87).
 */
module Folders {
  import opened Paths

  /** No path occurs twice in `folders`. */
  predicate NoDuplicates(folders: seq<Path>) {
    forall i, j :: 0 <= i < j < |folders| ==> folders[i] != folders[j]
  }

  /** The folder chosen in the dialog is recorded: non-empty (not cancelled) and new. */
  predicate IsNew(folders: seq<Path>, folder: Path) {
    folder != "" && folder !in folders
  }

  /**
   * The list update of `add_project_folder` (app.py:76-77). The dialog yields
   * "" when cancelled; a non-empty folder not yet listed goes at the end, and
   * anything else leaves the list as it was.
   */
  function Add(folders: seq<Path>, folder: Path): (r: seq<Path>)
    ensures folders <= r
    ensures |r| == if IsNew(folders, folder) then |folders| + 1 else |folders|
    ensures forall p :: p in r <==> p in folders || (p == folder && folder != "")
    ensures NoDuplicates(folders) ==> NoDuplicates(r)
  {
    if IsNew(folders, folder) then folders + [folder] else folders
  }
}

=== FILE: paths.dfy ===
/** Filesystem paths and POSIX `os.path.join` of two components (app.py:97-98). */
module Paths {

  /** A filesystem path as the program holds it: a plain string. */
  type Path = string

  /** The manifest file whose presence marks a directory as a Node.js project. */
  const Manifest: string := "package.json"

  /** `name` ends the path `p`. */
  predicate EndsWith(p: Path, name: string) {
    |name| <= |p| && p[|p| - |name|..] == name
  }

  /**
   * POSIX `os.path.join(base, name)`: an absolute `name` replaces `base`;
   * otherwise `name` is appended to `base`, with a `/` in between unless
   * `base` is empty or already ends with one.
   */
  function Join(base: Path, name: string): (p: Path)
    ensures |name| > 0 && name[0] == '/' ==> p == name
    ensures (|name| == 0 || name[0] != '/') ==> base <= p && |p| <= |base| + 1 + |name|
  {
    if |name| > 0 && name[0] == '/' then name
    else if base == [] || base[|base| - 1] == '/' then base + name
    else base + "/" + name
  }

  /** A joined path ends with the entry name, whichever branch of `Join` applies. */
  lemma JoinEndsWithName(base: Path, name: string)
    ensures EndsWith(Join(base, name), name)
  {
  }
}

=== FILE: registry.dfy ===
/**
 * The project registry rebuilt by `refresh_project_list` (app.py:93-99): the
 * map from project name to project path, gathered from the configured folders
 * in their stored order, a later folder overwriting an earlier one's entry.
 */
module Registry {
  import opened Paths
  import opened FileSystems

  /**
   * The outcome of a scan. `Complete` when every folder could be listed;
   * `Aborted` when `os.listdir` raised on folder `missing`, carrying the map
   * as the scan had filled it up to that point (the map is cleared first and
   * filled in place, so the exception leaves it half-built).
   */
  datatype Scan = Complete(paths: map<string, Path>) | Aborted(paths: map<string, Path>, missing: Path)

  /** Every folder of `folders` can be listed. */
  predicate AllListable(fs: FileSystem, folders: seq<Path>) {
    forall i :: 0 <= i < |folders| ==> Listable(fs, folders[i])
  }

  /** Entry `name` of the `i`-th configured folder is a project directory. */
  ghost predicate Qualifies(fs: FileSystem, folders: seq<Path>, i: int, name: string) {
    && 0 <= i < |folders|
    && Listable(fs, folders[i])
    && name in fs.entries[folders[i]]
    && IsProject(fs, folders[i], name)
  }

  /**
   * The inner loop of app.py:96-99 over the entries `names` of one folder,
   * writing each project directory found into `m`.
   */
  function ScanEntries(fs: FileSystem, folder: Path, names: seq<string>, m: map<string, Path>): (r: map<string, Path>)
    ensures forall n :: n in r <==> n in m || (n in names && IsProject(fs, folder, n))
    ensures forall n :: n in r ==> r[n] == if n in names && IsProject(fs, folder, n) then Join(folder, n) else m[n]
    decreases |names|
  {
    if names == [] then m
    else
      var init := names[..|names| - 1];
      var last := names[|names| - 1];
      assert names == init + [last];
      var r := ScanEntries(fs, folder, init, m);
      if IsProject(fs, folder, last) then r[last := Join(folder, last)] else r
  }

  /**
   * `refresh_project_list` (app.py:94-99): start from the empty map and scan
   * the folders in order; the first folder that cannot be listed aborts.
   * Written as recursion on the prefix, so it visits folders left to right.
   */
  function Refresh(fs: FileSystem, folders: seq<Path>): (r: Scan)
    ensures r.Aborted? ==> r.missing in folders && !Listable(fs, r.missing)
    decreases |folders|
  {
    if folders == [] then Complete(map[])
    else
      var prior := Refresh(fs, folders[..|folders| - 1]);
      var folder := folders[|folders| - 1];
      if prior.Aborted? then prior
      else if !Listable(fs, folder) then Aborted(prior.paths, folder)
      else Complete(ScanEntries(fs, folder, fs.entries[folder], prior.paths))
  }

  /** A folder index inside the prefix qualifies the same in the prefix and in the whole list. */
  lemma QualifiesInPrefix(fs: FileSystem, folders: seq<Path>, k: nat, i: int, name: string)
    requires k <= |folders| && i < k
    ensures Qualifies(fs, folders[..k], i, name) <==> Qualifies(fs, folders, i, name)
  {
  }

  /** The scan completes exactly when every configured folder can be listed. */
  lemma {:induction false} RefreshCompleteIff(fs: FileSystem, folders: seq<Path>)
    ensures Refresh(fs, folders).Complete? <==> AllListable(fs, folders)
    decreases |folders|
  {
    if folders != [] {
      var init := folders[..|folders| - 1];
      RefreshCompleteIff(fs, init);
      assert forall i :: 0 <= i < |init| ==> init[i] == folders[i];
    }
  }

  /**
   * When the `k`-th folder is the first that cannot be listed, the scan aborts
   * there, keeping exactly the map the complete scan of the folders before it
   * produces.
   */
  lemma {:induction false} RefreshStopsAtMissing(fs: FileSystem, folders: seq<Path>, k: nat)
    requires k < |folders| && !Listable(fs, folders[k]) && AllListable(fs, folders[..k])
    ensures Refresh(fs, folders[..k]).Complete?
    ensures Refresh(fs, folders) == Aborted(Refresh(fs, folders[..k]).paths, folders[k])
    decreases |folders|
  {
    RefreshCompleteIff(fs, folders[..k]);
    var init := folders[..|folders| - 1];
    if k < |init| {
      assert init[..k] == folders[..k];
      RefreshStopsAtMissing(fs, init, k);
    } else {
      assert init == folders[..k];
    }
  }

  /**
   * Every entry of the map, complete or half-built, names a project directory
   * `Join(folder, name)` found in some configured folder.
   */
  lemma {:induction false} RefreshSound(fs: FileSystem, folders: seq<Path>)
    ensures forall name :: name in Refresh(fs, folders).paths ==>
      exists i :: Qualifies(fs, folders, i, name) && Refresh(fs, folders).paths[name] == Join(folders[i], name)
    decreases |folders|
  {
    if folders != [] {
      var n := |folders| - 1;
      var init := folders[..n];
      RefreshSound(fs, init);
      forall name | name in Refresh(fs, folders).paths
        ensures exists i :: Qualifies(fs, folders, i, name) && Refresh(fs, folders).paths[name] == Join(folders[i], name)
      {
        var prior := Refresh(fs, init);
        if prior.Complete? && Listable(fs, folders[n])
          && name in fs.entries[folders[n]] && IsProject(fs, folders[n], name) {
          assert Qualifies(fs, folders, n, name);
        } else {
          assert name in prior.paths;
          var i :| Qualifies(fs, init, i, name) && prior.paths[name] == Join(init[i], name);
          QualifiesInPrefix(fs, folders, n, i, name);
        }
      }
    }
  }

  /** A complete scan records every project directory of every configured folder. */
  lemma {:induction false} RefreshComplete(fs: FileSystem, folders: seq<Path>)
    requires AllListable(fs, folders)
    ensures forall i, name :: Qualifies(fs, folders, i, name) ==> name in Refresh(fs, folders).paths
    decreases |folders|
  {
    if folders != [] {
      var n := |folders| - 1;
      var init := folders[..n];
      assert AllListable(fs, init) by {
        assert forall i :: 0 <= i < |init| ==> init[i] == folders[i];
      }
      RefreshComplete(fs, init);
      RefreshCompleteIff(fs, init);
      var prior := Refresh(fs, init).paths;
      var last := folders[n];
      var r := ScanEntries(fs, last, fs.entries[last], prior);
      assert Refresh(fs, folders).paths == r;
      forall i, name | Qualifies(fs, folders, i, name)
        ensures name in r
      {
        if i < n {
          QualifiesInPrefix(fs, folders, n, i, name);
          assert name in prior;
        } else {
          assert i == n;
          assert name in fs.entries[last] && IsProject(fs, last, name);
        }
      }
    }
  }

  /** Entry `name` is found in the `i`-th folder and in none after it. */
  ghost predicate LastFoundIn(fs: FileSystem, folders: seq<Path>, i: int, name: string) {
    Qualifies(fs, folders, i, name) && forall j :: i < j < |folders| ==> !Qualifies(fs, folders, j, name)
  }

  /**
   * On a name found in several folders the last of them wins: in a complete
   * scan each name maps to its path in the last folder that holds it.
   */
  lemma {:induction false} RefreshLastWins(fs: FileSystem, folders: seq<Path>)
    requires AllListable(fs, folders)
    ensures forall name :: name in Refresh(fs, folders).paths ==>
      exists i :: LastFoundIn(fs, folders, i, name) && Refresh(fs, folders).paths[name] == Join(folders[i], name)
    decreases |folders|
  {
    if folders != [] {
      var n := |folders| - 1;
      var init := folders[..n];
      assert AllListable(fs, init) by {
        assert forall i :: 0 <= i < |init| ==> init[i] == folders[i];
      }
      RefreshLastWins(fs, init);
      RefreshCompleteIff(fs, init);
      var prior := Refresh(fs, init);
      var last := folders[n];
      forall name | name in Refresh(fs, folders).paths
        ensures exists i :: LastFoundIn(fs, folders, i, name) && Refresh(fs, folders).paths[name] == Join(folders[i], name)
      {
        if name in fs.entries[last] && IsProject(fs, last, name) {
          assert LastFoundIn(fs, folders, n, name);
        } else {
          var i :| LastFoundIn(fs, init, i, name) && prior.paths[name] == Join(init[i], name);
          LastFoundExtends(fs, folders, i, name);
        }
      }
    }
  }

  /** A name last found in folder `i` of the prefix stays last when the final folder lacks it. */
  lemma LastFoundExtends(fs: FileSystem, folders: seq<Path>, i: int, name: string)
    requires |folders| > 0 && LastFoundIn(fs, folders[..|folders| - 1], i, name)
    requires !Qualifies(fs, folders, |folders| - 1, name)
    ensures LastFoundIn(fs, folders, i, name)
  {
    var n := |folders| - 1;
    QualifiesInPrefix(fs, folders, n, i, name);
    forall j | i < j < |folders|
      ensures !Qualifies(fs, folders, j, name)
    {
      if j < n {
        QualifiesInPrefix(fs, folders, n, j, name);
      }
    }
  }

  /**
   * The point form of last-wins: a name whose last holder is folder `k` maps
   * to its path under folder `k`.
   */
  lemma RefreshPicksLast(fs: FileSystem, folders: seq<Path>, k: int, name: string)
    requires AllListable(fs, folders) && LastFoundIn(fs, folders, k, name)
    ensures name in Refresh(fs, folders).paths
    ensures Refresh(fs, folders).paths[name] == Join(folders[k], name)
  {
    RefreshComplete(fs, folders);
    RefreshLastWins(fs, folders);
    var i :| LastFoundIn(fs, folders, i, name) && Refresh(fs, folders).paths[name] == Join(folders[i], name);
    assert i == k;
  }

  /**
   * Two listable folders that both hold project `name`: the second folder's
   * path wins and the first folder's path does not leak through.
   */
  lemma CollisionLaterFolderWins(fs: FileSystem, folders: seq<Path>, name: string)
    requires |folders| == 2 && AllListable(fs, folders)
    requires name in fs.entries[folders[0]] && IsProject(fs, folders[0], name)
    requires name in fs.entries[folders[1]] && IsProject(fs, folders[1], name)
    ensures name in Refresh(fs, folders).paths
    ensures Refresh(fs, folders).paths[name] == Join(folders[1], name)
  {
    assert LastFoundIn(fs, folders, 1, name);
    RefreshPicksLast(fs, folders, 1, name);
  }

  /**
   * The loop of app.py:94-99 as written: clear the map, then for each folder
   * in order list it and record every project directory found; an unlistable
   * folder raises out of the loop.
   */
  method RefreshProjectPaths(fs: FileSystem, folders: seq<Path>) returns (r: Scan)
    ensures r == Refresh(fs, folders)
  {
    var paths: map<string, Path> := map[];
    var i := 0;
    while i < |folders|
      invariant 0 <= i <= |folders|
      invariant Refresh(fs, folders[..i]) == Complete(paths)
    {
      var folder := folders[i];
      assert folders[..i + 1][..i] == folders[..i];
      if !Listable(fs, folder) {
        RefreshCompleteIff(fs, folders[..i]);
        RefreshStopsAtMissing(fs, folders, i);
        return Aborted(paths, folder);
      }
      var names := fs.entries[folder];
      var acc := paths;
      var j := 0;
      while j < |names|
        invariant 0 <= j <= |names|
        invariant acc == ScanEntries(fs, folder, names[..j], paths)
      {
        var name := names[j];
        var full := Join(folder, name);
        assert names[..j + 1][..j] == names[..j];
        if IsDir(fs, full) && IsFile(fs, Join(full, Manifest)) {
          acc := acc[name := full];
        }
        j := j + 1;
      }
      assert names[..j] == names;
      paths := acc;
      i := i + 1;
    }
    assert folders[..i] == folders;
    r := Complete(paths);
  }
}

=== FILE: text.dfy ===
/**
 * Python's `str.strip()` with no argument, as `start_server` applies it to the
 * selected project name (app.py:106).
 */
module Text {

  /**
   * Python's notion of a whitespace character (`str.isspace`): the C0 separators
   * TAB..CR and FS..US, SPACE, NEL, NO-BREAK SPACE, OGHAM SPACE MARK, the
   * typographic spaces U+2000..U+200A, LINE/PARAGRAPH SEPARATOR, NARROW NBSP,
   * MEDIUM MATHEMATICAL SPACE and IDEOGRAPHIC SPACE.
   */
  predicate IsSpace(c: char) {
    var n := c as int;
    || 0x09 <= n <= 0x0D
    || 0x1C <= n <= 0x20
    || n == 0x85 || n == 0xA0 || n == 0x1680
    || 0x2000 <= n <= 0x200A
    || n == 0x2028 || n == 0x2029 || n == 0x202F || n == 0x205F || n == 0x3000
  }

  /** Every character of `s` is whitespace (vacuously true of the empty string). */
  predicate AllSpace(s: string) {
    forall k :: 0 <= k < |s| ==> IsSpace(s[k])
  }

  /** `s` without its leading whitespace. */
  function TrimStart(s: string): (r: string)
    ensures |r| <= |s| && r == s[|s| - |r|..]
    ensures AllSpace(s[..|s| - |r|])
    ensures r == [] || !IsSpace(r[0])
  {
    if s == [] || !IsSpace(s[0]) then s
    else
      var r := TrimStart(s[1..]);
      assert s[1..][|s[1..]| - |r|..] == s[|s| - |r|..];
      assert forall k :: 1 <= k < |s| - |r| ==> s[k] == s[1..][..|s[1..]| - |r|][k - 1];
      r
  }

  /** `s` without its trailing whitespace. */
  function TrimEnd(s: string): (r: string)
    ensures |r| <= |s| && r == s[..|r|]
    ensures AllSpace(s[|r|..])
    ensures r == [] || !IsSpace(r[|r| - 1])
  {
    if s == [] || !IsSpace(s[|s| - 1]) then s
    else
      var r := TrimEnd(s[..|s| - 1]);
      assert s[..|s| - 1][..|r|] == s[..|r|];
      assert forall k :: |r| <= k < |s| - 1 ==> s[k] == s[..|s| - 1][|r|..][k - |r|];
      r
  }

  /**
   * `s.strip()`: `s` with whitespace cut off both ends. It is empty exactly
   * when `s` holds nothing but whitespace, and otherwise it neither starts
   * nor ends with whitespace.
   */
  function Strip(s: string): (r: string)
    ensures r == [] <==> AllSpace(s)
    ensures r != [] ==> !IsSpace(r[0]) && !IsSpace(r[|r| - 1])
  {
    var t := TrimStart(s);
    var r := TrimEnd(t);
    assert r == [] ==> AllSpace(s) by {
      if r == [] {
        assert t == [];
        assert forall k :: 0 <= k < |s| ==> s[k] == s[..|s|][k];
      }
    }
    assert r != [] ==> r[0] == t[0];
    r
  }

  /** What `Strip` removes is whitespace at the two ends and nothing else. */
  lemma StripIsInfix(s: string)
    ensures exists lo :: 0 <= lo <= |s| && Strip(s) <= s[lo..] && AllSpace(s[..lo]) && AllSpace(s[lo..][|Strip(s)|..])
  {
    var t := TrimStart(s);
    var r := TrimEnd(t);
    assert r == Strip(s);
    var lo := |s| - |t|;
    assert s[lo..] == t;
    assert r <= t by {
      assert r == t[..|r|];
    }
    assert AllSpace(s[..lo]);
    assert AllSpace(s[lo..][|r|..]) by {
      assert s[lo..][|r|..] == t[|r|..];
    }
    assert 0 <= lo <= |s| && r <= s[lo..] && AllSpace(s[..lo]) && AllSpace(s[lo..][|r|..]);
  }
}

=== FILE: wrappers.dfy ===
/** The optional-value datatype shared by the model (Python's `None`-or-value). */
module Wrappers {

  /** Either nothing (`None`) or a value (`Some`). */
  datatype Option<+T> = None | Some(value: T)
}
